=== FILE: README.md ===
# perrot axes and Venn patches in Dafny

This project models two parts of the perrot charting layer: how a Cartesian
axis lays itself out, and how a Venn diagram patch draws itself.

**Axis layout.** An axis needs room across its line for three parts. The
ticks need the least non-negative value that covers every shown kind of
tick. The labels need their offset plus the measured size of the longest
label: its height on a top or bottom axis, its width otherwise. The title
needs its offset plus the measured title height. Before the glyph is drawn:

- the scale's output range is recomputed from the frame and the position;
- label and title offsets stack on the extents beneath them;
- the anchor corner comes from a per-position table;
- the line length is the span of the output range.

Changing the position to one of the four sides resets four text
alignment/baseline properties to that side's canonical values; changing it
to `UNDEF` resets them to `UNDEF`, and any other defined position leaves
them alone. Only the constructor keeps the ones the
caller supplied; a later change of position overwrites all four.

**Axis variants.** Linear, logarithmic, ordinal and time axes each pick a
default scale and ticker and lock them. The logarithmic axis copies its base
into the ticker and the formatter. The ordinal axis rebuilds four things
together from its label tuple: the mapper, the scale's input range
`(-0.5, n-0.5)`, integer major ticks, and half-integer minor boundaries.

**Venn patches.** A draw call is modelled as the list of canvas commands it
issues. A small canvas interpreter then shows which pen and brush are in
force when the path is drawn. The region and circle constructors fill in
outline and fill defaults for the keys the caller did not supply.

The pero toolkit's own computations are not part of this model. These are
tick generation and the ticker's unit suffix (both for the scale's input
range), `scale.scale`, text measurement, a fresh scale's output range and a
fresh log ticker's base. They reach the model as the total functions of an `AxisModel.Toolkit`
record. Property-changed handlers become setter functions that return the
updated record.

Files: `common.dfy` (optional values and results), `axis_model.dfy`
(records), `axis_layout.dfy` (extents, tables, glyph, setters), `axis_variants.dfy`
(constructors, log base, ordinal labels), `venn_patches.dfy`.

Four behaviours of the code that the model keeps as written:

- The ordinal axis does not deduplicate its labels. The lookup lemma
  therefore assumes distinct labels.
- The title extent ignores `show_title`: a hidden title still reserves its
  space (`AxisLayout.TitleExtentIgnoresShowTitle`).
- Emptying the ordinal labels gives the input range `(-0.5, 0.5)` and no
  minor ticks. This is not the `n = 0` instance of the general formula,
  which would give `(-0.5, -0.5)` and one minor tick.
- Alignment properties pinned at construction do not survive a later
  change of position: the change handler resets them with nothing kept
  (`AxisLayout.SetPosition`, `AxisLayout.BottomToLeft`).

## Model

| member | source | states |
|---|---|---|
| AxisLayout.TicksExtent | perrot/chart/axes.py:187-208 | the tick extent is non-negative, covers the reach (size + offset) of every shown tick kind, and is 0 or exactly one shown reach, so it is the least such value |
| AxisLayout.TicksExtentCases | perrot/chart/axes.py:196-208 | 0 when both tick kinds are hidden; `max(0, max(major, minor))`, `max(0, major)` or `max(0, minor)` in the other three cases |
| AxisLayout.LongestIndex | perrot/chart/axes.py:236 | the label measured is at least as long as every label and strictly longer than each earlier one (Python `max` with `key=len` keeps the first) |
| AxisLayout.LabelsExtent | perrot/chart/axes.py:211-245 | 0 when labels are hidden; `max(0, offset)` when the ticker yields no labels; otherwise `max(0, offset + m)`, where m is the longest label's height (top/bottom) or width (other positions); never negative |
| AxisLayout.TitleExtent | perrot/chart/axes.py:248-263 | 0 for a missing or empty title, otherwise offset + measured title height, so never below the offset |
| AxisLayout.TitleExtentIgnoresShowTitle | perrot/chart/axes.py:251-254 | the title extent is the same whether or not the title is shown |
| AxisLayout.GetExtent | perrot/chart/axes.py:157-167 | the total is exactly ticks + labels + title extent (the parts are stacked), hence covers ticks + title and labels + title, and is non-negative without a title |
| AxisLayout.OutRangeFor | perrot/chart/axes.py:341-355 | left and right axes get `(y2, y1)`; top, bottom and any other position get `(x1, x2)` |
| AxisLayout.AnchorFor | perrot/chart/axes.py:294-313 | left anchors at `(x2, y1)`, top at `(x1, y2)`, right, bottom and others at `(x1, y1)` |
| AxisLayout.UpdateScale | perrot/chart/axes.py:333-355 | the output range follows the position table; input range, scale kind and all other axis fields are unchanged |
| AxisLayout.UpdateScaleIdempotent | perrot/chart/axes.py:333-355 | recomputing the output range a second time changes nothing |
| AxisLayout.ExtentsIgnoreOutRange | perrot/chart/axes.py:187-263 | none of the extents reads the scale's output range |
| AxisLayout.UpdatePosition | perrot/chart/axes.py:358-410 | fields named in `keep` are untouched; a defined position other than the four sides changes nothing; otherwise each free field gets the per-position value, or `UNDEF` for an unset position |
| AxisLayout.UpdatePositionIdempotent | perrot/chart/axes.py:358-410 | applying the position defaults twice equals applying them once |
| AxisLayout.UpdatePositionForgetsPrevious | perrot/chart/axes.py:361-410 | with nothing kept, the result depends only on the position |
| AxisLayout.SetPosition | perrot/chart/axes.py:419-421 | the new position is stored; on a change the text defaults are reset with nothing kept; nothing else changes |
| AxisLayout.BottomToLeft | perrot/chart/axes.py:367-372 | moving a bottom axis to the left yields centred/bottom title and right/middle labels |
| AxisLayout.SetFrame | perrot/chart/axes.py:413-417 | the new frame is stored; an unchanged frame leaves the axis as it was; on a change the output range follows the new frame; scale kind, input range and all other fields stay |
| AxisLayout.ProjectAll | perrot/chart/axes.py:281-282 | glyph ticks are the ticker's ticks mapped one by one through the scale |
| AxisLayout.GlyphTitle | perrot/chart/axes.py:286 | empty without a title text; otherwise the title followed by exactly the ticker's suffix |
| AxisLayout.UpdateGlyph | perrot/chart/axes.py:266-330 | label offset = configured offset + tick extent; title offset = configured offset + tick + label extents; length = absolute span of the output range; anchor from the position table; title as `GlyphTitle`; labels from the ticker; major and minor ticks are the ticker's ticks projected through the scale |
| AxisLayout.Draw | perrot/chart/axes.py:170-184 | an invisible axis draws nothing and is unchanged; a visible one has only its scale's output range recomputed from frame and position, and draws the glyph `UpdateGlyph` computes from that updated axis |
| AxisLayout.DrawMatchesExtent | perrot/chart/axes.py:170-184 | the glyph's length is the frame size along the axis and it sits at the anchor corner; labels start past the ticks, and the title starts where the ticks and labels of `GetExtent` end; its title is empty exactly when no title is set |
| AxisVariants.PinnedText | perrot/chart/axes.py:150-151 | the properties kept at construction are exactly the supplied alignment/baseline keywords |
| AxisVariants.DefaultInRange | perrot/chart/axes.py:424-599 | default input range `(0,1)` for linear, time and plain axes, `(1,10)` for logarithmic, `(-0.5,0.5)` for ordinal |
| AxisVariants.DefaultScale | perrot/chart/axes.py:424-599 | a logarithmic axis defaults to a log scale, every other axis to a linear one, over the default input range |
| AxisVariants.DefaultTicker | perrot/chart/axes.py:424-599 | log, fixed (with index formatter), time or linear ticker by variant; only the ordinal default uses an index formatter; the log ticker starts on pero's own default base |
| AxisVariants.NewAxis | perrot/chart/axes.py:133-154 | the axis stores the supplied title, labels and base; show flags, offsets and tick sizes take the class defaults (axes.py:102-130) and the mapper is set only for an ordinal axis with labels; a supplied scale or ticker is kept (ordinal axes rewrite its ranges and ticks, log axes with a base its base); otherwise the variant's default scale kind, input range, output range, ticker kind and formatter kind; the text layout is the position table applied to every key not supplied; an ordinal axis starts consistent and a log axis built with a base is consistent (ticker and formatter on that base), while one built with neither base nor ticker keeps `base` at `UNDEF` and its ticker on pero's default base |
| AxisVariants.SetScale | perrot/chart/axes.py:441-443 | only a plain axis accepts a new scale; the linear, logarithmic, ordinal and time variants (locks at lines 442, 473, 526 and 598) report an immutable-property error |
| AxisVariants.SetTicker | perrot/chart/axes.py:441-443 | only a plain axis accepts a new ticker; the linear, logarithmic, ordinal and time variants (locks at lines 443, 474, 527 and 599) report an immutable-property error |
| AxisVariants.UpdateBase | perrot/chart/axes.py:484-488 | ticker base and formatter base equal the axis base afterwards; nothing else changes |
| AxisVariants.SetBase | perrot/chart/axes.py:491-496 | the base is stored; an unchanged base leaves the axis as it was; a change reaches ticker and formatter; nothing else about the axis, ticker or formatter changes; consistency is preserved |
| AxisVariants.BaseTenToTwo | perrot/chart/axes.py:484-496 | changing the base from 10 to 2 makes both ticker and formatter base 2 |
| AxisVariants.IndexTicks | perrot/chart/axes.py:551 | major ticks are `0, 1, ..., n-1` |
| AxisVariants.BoundaryTicks | perrot/chart/axes.py:552 | minor ticks are `-0.5` followed by each major tick plus 0.5, one more than the major ticks |
| AxisVariants.UpdateLabels | perrot/chart/axes.py:536-569 | mapper, input range, major/minor ticks and formatter labels are all consistent with the labels (empty or not); scale kind, output range, ticker kind and bases and all other fields stay |
| AxisVariants.SetLabels | perrot/chart/axes.py:572-577 | the labels are stored; unchanged labels leave the axis as it was; only mapper, scale input range, tick values and formatter labels may change; every change leaves the axis consistent, and a consistent axis stays consistent |
| AxisVariants.OrdinalTicksBracket | perrot/chart/axes.py:549-569 | the first and last minor ticks equal the input-range bounds, and each category tick lies strictly between two minor ticks one unit apart |
| AxisVariants.IndexOf | perrot/chart/axes.py:556-561 | finds the first position of a label, or reports that it is absent |
| AxisVariants.MapLabel | perrot/chart/axes.py:556-561 | a label outside the set is a not-found error (no implicit values, no recycling); a found label maps to the paired output value |
| AxisVariants.OrdinalMapsLabelsToIndices | perrot/chart/axes.py:549-561 | with distinct labels each label maps to its own index and any other value fails |
| AxisVariants.ThreeLabels | perrot/chart/axes.py:549-569 | labels one, two, three give range `(-0.5, 2.5)`, majors `0,1,2`, minors `-0.5,0.5,1.5,2.5`, mapper `0,1,2` |
| AxisVariants.ClearLabels | perrot/chart/axes.py:540-546 | clearing the labels drops the mapper, resets the range to `(-0.5, 0.5)` and empties ticks and formatter labels |
| VennPatches.DrawCountAppend | perrot/venn/patches.py:65 | appending a command adds one to the draw count exactly when it draws a path |
| VennPatches.Draw | perrot/venn/patches.py:50-65 | no commands without a path; otherwise pen, brush, then a single final path draw |
| VennPatches.DrawFill | perrot/venn/patches.py:68-83 | no commands without a path; otherwise zero line width, brush, then a single final path draw, and never a pen from the patch |
| VennPatches.DrawOutline | perrot/venn/patches.py:86-101 | no commands without a path; otherwise pen, transparent fill, then a single final path draw, and never a brush from the patch |
| VennPatches.RunThree | perrot/venn/patches.py:60-65 | a three-command trace has the effect of its commands applied in order |
| VennPatches.RunAppend | perrot/venn/patches.py:60-101 | running two traces in sequence equals running their concatenation, so each canvas call takes effect in the order issued |
| VennPatches.DrawUsesPatchStyle | perrot/venn/patches.py:60-65 | the canvas gains exactly one stroke, with the patch's outline and fill whatever was set before; without a path it is unchanged |
| VennPatches.DrawFillHasNoOutline | perrot/venn/patches.py:78-83 | the stroke has zero line width and the patch's fill; without a path the canvas is unchanged |
| VennPatches.DrawOutlineHasNoFill | perrot/venn/patches.py:96-101 | the stroke has the patch's outline and a transparent fill style; without a path the canvas is unchanged |
| VennPatches.WithDefaults | perrot/venn/patches.py:111-123 | supplied keys pass through unchanged; the three outline/fill keys are added with their defaults only when absent |
| VennPatches.RegionOverrides | perrot/venn/patches.py:108-123 | region defaults: width 2, transparent outline, transparent fill, only for absent keys |
| VennPatches.CircleOverrides | perrot/venn/patches.py:139-154 | circle defaults: width 2, white outline, fill `UNDEF`, only for absent keys |
| VennPatches.DefaultsIdempotent | perrot/venn/patches.py:108-154 | filling in defaults twice equals once, for both patch kinds |
| VennPatches.RegionCircleAgreeOffColour | perrot/venn/patches.py:108-154 | both kinds yield the same keys, and agree on every supplied key and on the line width |

## Left out

- Tick generation, the unit suffix, `scale.scale`, text measurement and the log ticker's default base belong to pero. They are fields of `AxisModel.Toolkit`; measured sizes are non-negative reals. Formatters are reduced to the two attributes the axes write (base and label set); how they format is not modelled.
- AxisVariants.MapLabel: pero's `OrdinalScale` lookup is not part of this model. The source only configures it with `default = UNDEF`, no implicit values and no recycling. The `LabelNotFound` error stands in for that `UNDEF` default. First-occurrence lookup for duplicate labels is a modelling choice, not taken from the source.
- Scale, ticker, formatter and mapper are values owned by the axis record. In the source they are shared objects written in place (`scale.out_range`, `scale.in_range`, `ticker.base`, `formatter.base`, tick values). A colour bar or series holding the same scale or an earlier mapper would see those writes, or keep a replaced mapper. The model does not represent that sharing.
- A keyword supplied explicitly as `UNDEF` still counts as supplied in the source: a text keyword is pinned, and `base=UNDEF` makes the log axis run `_update_base`, setting the ticker and formatter base to `UNDEF`. `AxisVariants.AxisOverrides` uses `None` for "not supplied" and cannot express either case; with `base` absent the model keeps pero's default ticker base.
- The ticker's `start`/`end` are not stored. The extent and glyph code sets them to the scale's input range right before use, so the toolkit's tick, label and suffix functions receive that range directly.
- The property framework is not modelled: `get_property` with `source`/`overrides`, dynamic properties, and the event bus. Each axis or patch record holds the effective property values, and setters stand in for the change handlers.
- The setters assume a property-changed event fires only when the value actually changes.
- `lock_property` is modelled only by `SetScale`/`SetTicker` returning an error on a locked variant.
- Constructors read only the scale, ticker, title, four alignment keys, base and labels. Every other property takes its class default. Position and frame are passed in, since their defaults live in a base class that is not part of this model.
- Text properties not supplied start as `UNDEF`.
- `StraitAxis` and its drawing are not modelled: `set_properties_from`, `glyph.draw`, `show_line`, and what `show_title`/`label_overlap` do on screen. The model stops at the values handed to the glyph.
- Fonts are not represented: `labelBox` and `titleBox` stand for measurement under a fixed label font and title font. The label angle is an argument of `labelBox`; the constructor gives it 0, taken as the default of pero's angle properties, which are not part of this model.
- Floating point is modelled as exact `real` arithmetic.
- Patch paths count as absent only when `None`/`UNDEF`; an empty pero `Path` object's truth value is not modelled.
- `value`, `title`, `x` and `y` of a patch are stored but not read by the drawing code.
- The type-constraint error on assigning a non-path to `path` belongs to the property framework and is not modelled.
- `set_pen_by`/`set_brush_by` are modelled as replacing the canvas's line colour/width and fill colour/style; other pen attributes are not modelled.
- Example scripts, `perrot/enums/__init__.py` and the package re-exports contain no logic of the core.

=== FILE: axis_layout.dfy ===
/** Layout arithmetic of `perrot.chart.axes.Axis`: how much room the axis
    needs across its line (ticks, labels, title), where its pieces go, and
    how its position and frame drive the scale's output range, the anchor
    corner and the default text alignment. */
module AxisLayout {
  import opened Common
  import opened AxisModel

  function Max(a: real, b: real): (m: real)
    ensures m >= a && m >= b
    ensures m == a || m == b
  {
    if a >= b then a else b
  }

  function Abs(a: real): (m: real)
    ensures m >= 0.0
    ensures m == a || m == -a
  {
    if a >= 0.0 then a else -a
  }

  // ---------------------------------------------------------------------
  // Extent
  // ---------------------------------------------------------------------

  /** How far the major ticks reach out from the axis line. */
  function MajorReach(ax: Axis): real {
    ax.majorTickSize + ax.majorTickOffset
  }

  /** How far the minor ticks reach out from the axis line. */
  function MinorReach(ax: Axis): real {
    ax.minorTickSize + ax.minorTickOffset
  }

  /** Space needed for the ticks: the least non-negative value that covers
      the reach of every kind of tick that is shown. */
  function TicksExtent(ax: Axis): (e: real)
    ensures e >= 0.0
    ensures ax.showMajorTicks ==> e >= MajorReach(ax)
    ensures ax.showMinorTicks ==> e >= MinorReach(ax)
    ensures e == 0.0 || (ax.showMajorTicks && e == MajorReach(ax)) || (ax.showMinorTicks && e == MinorReach(ax))
  {
    var extent := if ax.showMajorTicks then MajorReach(ax) else 0.0;
    var extent := if ax.showMinorTicks then Max(extent, MinorReach(ax)) else extent;
    Max(0.0, extent)
  }

  /** The tick extent in each of the four show/hide combinations. */
  lemma TicksExtentCases(ax: Axis)
    ensures !ax.showMajorTicks && !ax.showMinorTicks ==> TicksExtent(ax) == 0.0
    ensures ax.showMajorTicks && ax.showMinorTicks ==> TicksExtent(ax) == Max(0.0, Max(MajorReach(ax), MinorReach(ax)))
    ensures ax.showMajorTicks && !ax.showMinorTicks ==> TicksExtent(ax) == Max(0.0, MajorReach(ax))
    ensures !ax.showMajorTicks && ax.showMinorTicks ==> TicksExtent(ax) == Max(0.0, MinorReach(ax))
  {
  }

  /** Index of the label Python's `max(labels, key=len)` picks: a longest
      one, and the first of the longest. */
  function LongestIndex(labels: seq<string>): (k: nat)
    requires |labels| > 0
    ensures k < |labels|
    ensures forall j :: 0 <= j < |labels| ==> |labels[j]| <= |labels[k]|
    ensures forall j :: 0 <= j < k ==> |labels[j]| < |labels[k]|
    decreases |labels|
  {
    if |labels| == 1 then 0
    else
      var k := LongestIndex(labels[..|labels| - 1]);
      if |labels[|labels| - 1]| > |labels[k]| then |labels| - 1 else k
  }

  /** The labels the axis's ticker produces over the scale's input range. */
  function TickLabels(ax: Axis, tk: Toolkit): seq<string> {
    tk.labels(ax.ticker, ax.scale.inRange)
  }

  /** The size of a measured box across the axis line: its height for a
      top or bottom axis, its width otherwise. */
  function Across(p: Position, b: Box): (s: real)
    ensures s >= 0.0
    ensures Horizontal(p) ==> s == b.height
    ensures !Horizontal(p) ==> s == b.width
  {
    if Horizontal(p) then b.height else b.width
  }

  /** Space needed for the tick labels. */
  function LabelsExtent(ax: Axis, tk: Toolkit): (e: real)
    ensures e >= 0.0
    ensures !ax.showLabels ==> e == 0.0
    ensures ax.showLabels && |TickLabels(ax, tk)| == 0 ==> e == Max(0.0, ax.labelOffset)
    ensures ax.showLabels && |TickLabels(ax, tk)| > 0 ==>
      var labels := TickLabels(ax, tk);
      var m := Across(ax.position, tk.labelBox(labels[LongestIndex(labels)], ax.labelAngle));
      e == Max(0.0, ax.labelOffset + m) && e >= ax.labelOffset
  {
    if !ax.showLabels then 0.0
    else
      var labels := TickLabels(ax, tk);
      if |labels| == 0 then Max(0.0, ax.labelOffset)
      else
        var longest := labels[LongestIndex(labels)];
        var box := tk.labelBox(longest, ax.labelAngle);
        Max(0.0, ax.labelOffset + Across(ax.position, box))
  }

  /** Space needed for the title: nothing without a title text, otherwise
      the offset plus the measured text height (not clamped at zero, and
      not affected by `showTitle`). */
  function TitleExtent(ax: Axis, tk: Toolkit): (e: real)
    ensures !Truthy(ax.title) ==> e == 0.0
    ensures Truthy(ax.title) ==> e == ax.titleOffset + tk.titleBox(ax.title.value).height
    ensures Truthy(ax.title) ==> e >= ax.titleOffset
  {
    if !Truthy(ax.title) then 0.0
    else ax.titleOffset + tk.titleBox(ax.title.value).height
  }

  /** Hiding the title does not release its space: the title extent reads
      only the title text and offset. */
  lemma TitleExtentIgnoresShowTitle(ax: Axis, tk: Toolkit, show: bool)
    ensures TitleExtent(ax.(showTitle := show), tk) == TitleExtent(ax, tk)
  {
  }

  /** Total space the axis needs across its line: the three parts are
      stacked, not overlapped. */
  function GetExtent(ax: Axis, tk: Toolkit): (e: real)
    ensures e == TicksExtent(ax) + LabelsExtent(ax, tk) + TitleExtent(ax, tk)
    ensures e >= TicksExtent(ax) + TitleExtent(ax, tk)
    ensures e >= LabelsExtent(ax, tk) + TitleExtent(ax, tk)
    ensures !Truthy(ax.title) ==> e >= 0.0
  {
    TicksExtent(ax) + LabelsExtent(ax, tk) + TitleExtent(ax, tk)
  }

  // ---------------------------------------------------------------------
  // Position tables
  // ---------------------------------------------------------------------

  /** The scale's output range for an axis at `p` against `f`: vertical
      axes run from the frame's bottom edge up, every other axis from the
      left edge across. */
  function OutRangeFor(p: Position, f: Frame): (r: Pair)
    ensures (p == Left || p == Right) ==> r == Pair(f.y2, f.y1)
    ensures !(p == Left || p == Right) ==> r == Pair(f.x1, f.x2)
  {
    if p == Left then Pair(f.y2, f.y1)
    else if p == Right then Pair(f.y2, f.y1)
    else if p == Top then Pair(f.x1, f.x2)
    else if p == Bottom then Pair(f.x1, f.x2)
    else Pair(f.x1, f.x2)
  }

  /** The frame corner the glyph is anchored at. */
  function AnchorFor(p: Position, f: Frame): (r: Pair)
    ensures p == Left ==> r == Pair(f.x2, f.y1)
    ensures p == Top ==> r == Pair(f.x1, f.y2)
    ensures p != Left && p != Top ==> r == Pair(f.x1, f.y1)
  {
    if p == Left then Pair(f.x2, f.y1)
    else if p == Right then Pair(f.x1, f.y1)
    else if p == Top then Pair(f.x1, f.y2)
    else if p == Bottom then Pair(f.x1, f.y1)
    else Pair(f.x1, f.y1)
  }

  /** Recomputes the scale's output range from the frame and position;
      nothing else about the axis or its scale changes. */
  function UpdateScale(ax: Axis): (r: Axis)
    ensures r.scale.outRange == OutRangeFor(ax.position, ax.frame)
    ensures r.scale.inRange == ax.scale.inRange && r.scale.kind == ax.scale.kind
    ensures r.(scale := ax.scale) == ax
  {
    ax.(scale := ax.scale.(outRange := OutRangeFor(ax.position, ax.frame)))
  }

  /** Re-running the update changes nothing more. */
  lemma UpdateScaleIdempotent(ax: Axis)
    ensures UpdateScale(UpdateScale(ax)) == UpdateScale(ax)
  {
  }

  /** The extents do not read the scale's output range, so recomputing it
      leaves every extent as it was. */
  lemma ExtentsIgnoreOutRange(ax: Axis, tk: Toolkit, out: Pair)
    ensures var a := ax.(scale := ax.scale.(outRange := out));
      && TicksExtent(a) == TicksExtent(ax)
      && LabelsExtent(a, tk) == LabelsExtent(ax, tk)
      && TitleExtent(a, tk) == TitleExtent(ax, tk)
      && GetExtent(a, tk) == GetExtent(ax, tk)
  {
  }

  // ---------------------------------------------------------------------
  // Position-driven text defaults
  // ---------------------------------------------------------------------

  /** Resets the four text alignment/baseline properties to the canonical
      combination for `p`, except those whose names are in `keep`. A
      defined position other than the four sides changes nothing; `Unset`
      resets every property not kept to `UNDEF`. */
  function UpdatePosition(p: Position, t: TextLayout, keep: set<string>): (r: TextLayout)
    ensures p == Other ==> r == t
    ensures TitleTextAlign in keep ==> r.titleAlign == t.titleAlign
    ensures TitleTextBase in keep ==> r.titleBase == t.titleBase
    ensures LabelTextAlign in keep ==> r.labelAlign == t.labelAlign
    ensures LabelTextBase in keep ==> r.labelBase == t.labelBase
    ensures p != Other && TitleTextAlign !in keep ==>
      r.titleAlign == (match p
                       case Unset => None
                       case _ => Some(AlignCenter))
    ensures p != Other && TitleTextBase !in keep ==>
      r.titleBase == (match p
                      case Unset => None
                      case Bottom => Some(BaseTop)
                      case _ => Some(BaseBottom))
    ensures p != Other && LabelTextAlign !in keep ==>
      r.labelAlign == (match p
                       case Left => Some(AlignRight)
                       case Right => Some(AlignLeft)
                       case Unset => None
                       case _ => Some(AlignCenter))
    ensures p != Other && LabelTextBase !in keep ==>
      r.labelBase == (match p
                      case Left => Some(BaseMiddle)
                      case Right => Some(BaseMiddle)
                      case Top => Some(BaseBottom)
                      case Bottom => Some(BaseTop)
                      case _ => None)
  {
    var table: TextLayout :=
      if p == Left then TextLayout(Some(AlignCenter), Some(BaseBottom), Some(AlignRight), Some(BaseMiddle))
      else if p == Right then TextLayout(Some(AlignCenter), Some(BaseBottom), Some(AlignLeft), Some(BaseMiddle))
      else if p == Top then TextLayout(Some(AlignCenter), Some(BaseBottom), Some(AlignCenter), Some(BaseBottom))
      else if p == Bottom then TextLayout(Some(AlignCenter), Some(BaseTop), Some(AlignCenter), Some(BaseTop))
      else TextLayout(None, None, None, None);
    if p == Other then t
    else
      TextLayout(
        if TitleTextAlign !in keep then table.titleAlign else t.titleAlign,
        if TitleTextBase !in keep then table.titleBase else t.titleBase,
        if LabelTextAlign !in keep then table.labelAlign else t.labelAlign,
        if LabelTextBase !in keep then table.labelBase else t.labelBase)
  }

  /** Applying the position defaults a second time changes nothing. */
  lemma UpdatePositionIdempotent(p: Position, t: TextLayout, keep: set<string>)
    ensures UpdatePosition(p, UpdatePosition(p, t, keep), keep) == UpdatePosition(p, t, keep)
  {
  }

  /** Without pinned properties the result depends on the position only:
      whatever alignment was there before is forgotten. */
  lemma UpdatePositionForgetsPrevious(p: Position, t1: TextLayout, t2: TextLayout)
    requires p != Other
    ensures UpdatePosition(p, t1, {}) == UpdatePosition(p, t2, {})
  {
  }

  /** Assigns the position; when it differs from the current one, the
      property-changed handler resets the text defaults with nothing kept. */
  function SetPosition(ax: Axis, p: Position): (r: Axis)
    ensures r.position == p
    ensures r.(text := ax.text, position := ax.position) == ax
    ensures p == ax.position ==> r == ax
    ensures p != ax.position ==> r.text == UpdatePosition(p, ax.text, {})
  {
    if p == ax.position then ax
    else ax.(position := p, text := UpdatePosition(p, ax.text, {}))
  }

  /** Moving a bottom axis to the left gives the left axis's canonical
      text layout, whatever was set before. */
  lemma BottomToLeft(ax: Axis)
    requires ax.position == Bottom
    ensures SetPosition(ax, Left).text ==
      TextLayout(Some(AlignCenter), Some(BaseBottom), Some(AlignRight), Some(BaseMiddle))
  {
  }

  /** Assigns the frame; when it differs from the current one, the
      property-changed handler recomputes the scale's output range. */
  function SetFrame(ax: Axis, f: Frame): (r: Axis)
    ensures r.frame == f
    ensures f == ax.frame ==> r == ax
    ensures r.(frame := ax.frame, scale := ax.scale) == ax
    ensures r.scale.inRange == ax.scale.inRange && r.scale.kind == ax.scale.kind
    ensures f != ax.frame ==> r.scale.outRange == OutRangeFor(ax.position, f)
  {
    if f == ax.frame then ax
    else UpdateScale(ax.(frame := f))
  }

  // ---------------------------------------------------------------------
  // Glyph
  // ---------------------------------------------------------------------

  /** Maps domain ticks through the scale. */
  function ProjectAll(tk: Toolkit, s: Scale, ticks: seq<real>): (r: seq<real>)
    ensures |r| == |ticks|
    ensures forall i :: 0 <= i < |ticks| ==> r[i] == tk.project(s, ticks[i])
  {
    seq(|ticks|, i requires 0 <= i < |ticks| => tk.project(s, ticks[i]))
  }

  /** The title shown on the glyph: empty without a title text, otherwise
      the title followed by the ticker's unit suffix, which the ticker
      computes once its start and end are the scale's input range. */
  function GlyphTitle(ax: Axis, tk: Toolkit): (s: string)
    ensures !Truthy(ax.title) ==> s == ""
    ensures Truthy(ax.title) ==> |s| > 0 && ax.title.value <= s
    ensures Truthy(ax.title) ==> s[|ax.title.value|..] == tk.suffix(ax.ticker, ax.scale.inRange)
  {
    if Truthy(ax.title) then ax.title.value + tk.suffix(ax.ticker, ax.scale.inRange) else ""
  }

  /** Everything the axis computes for its glyph. Offsets stack up: labels
      sit beyond the ticks, the title beyond ticks and labels. */
  function UpdateGlyph(ax: Axis, tk: Toolkit): (g: Glyph)
    ensures g.labelOffset == ax.labelOffset + TicksExtent(ax)
    ensures g.titleOffset == ax.titleOffset + TicksExtent(ax) + LabelsExtent(ax, tk)
    ensures g.length >= 0.0
    ensures g.length == ax.scale.outRange.second - ax.scale.outRange.first
         || g.length == ax.scale.outRange.first - ax.scale.outRange.second
    ensures g.labels == TickLabels(ax, tk)
    ensures g.title == GlyphTitle(ax, tk)
    ensures Pair(g.x, g.y) == AnchorFor(ax.position, ax.frame)
    ensures g.majorTicks == ProjectAll(tk, ax.scale, tk.majorTicks(ax.ticker, ax.scale.inRange))
    ensures g.minorTicks == ProjectAll(tk, ax.scale, tk.minorTicks(ax.ticker, ax.scale.inRange))
  {
    var major := ProjectAll(tk, ax.scale, tk.majorTicks(ax.ticker, ax.scale.inRange));
    var minor := ProjectAll(tk, ax.scale, tk.minorTicks(ax.ticker, ax.scale.inRange));
    var ticksExtent := TicksExtent(ax);
    var labelsExtent := LabelsExtent(ax, tk);
    var anchor := AnchorFor(ax.position, ax.frame);
    Glyph(
      anchor.first,
      anchor.second,
      Abs(ax.scale.outRange.second - ax.scale.outRange.first),
      GlyphTitle(ax, tk),
      TickLabels(ax, tk),
      major,
      minor,
      ax.titleOffset + (ticksExtent + labelsExtent),
      ax.labelOffset + ticksExtent)
  }

  /** The state after `draw`: the axis (with its recomputed scale) and the
      glyph it drew, if it was visible. */
  datatype Drawn = Drawn(axis: Axis, glyph: Option<Glyph>)

  /** Draws the axis: nothing when invisible, otherwise the scale is
      brought up to date with the frame and the glyph is filled in. */
  function Draw(ax: Axis, tk: Toolkit): (d: Drawn)
    ensures !ax.visible ==> d == Drawn(ax, None)
    ensures ax.visible ==> d.glyph.Some? && d.axis.scale.outRange == OutRangeFor(ax.position, ax.frame)
    ensures d.axis.(scale := ax.scale) == ax
    ensures d.axis.scale.(outRange := ax.scale.outRange) == ax.scale
    ensures ax.visible ==> d.axis == UpdateScale(ax) && d.glyph == Some(UpdateGlyph(d.axis, tk))
  {
    if !ax.visible then Drawn(ax, None)
    else
      var a := UpdateScale(ax);
      Drawn(a, Some(UpdateGlyph(a, tk)))
  }

  /** The drawn glyph agrees with the layout the parent plot reserved:
      its length is the frame's size along the axis, it sits at the
      position's anchor corner, its labels start right past the ticks, and
      its title starts where the ticks and labels of `GetExtent` end. */
  lemma DrawMatchesExtent(ax: Axis, tk: Toolkit)
    requires ax.visible
    ensures var g := Draw(ax, tk).glyph.value;
      && (ax.position == Left || ax.position == Right ==> g.length == Abs(ax.frame.y1 - ax.frame.y2))
      && (!(ax.position == Left || ax.position == Right) ==> g.length == Abs(ax.frame.x2 - ax.frame.x1))
      && Pair(g.x, g.y) == AnchorFor(ax.position, ax.frame)
      && g.labelOffset - ax.labelOffset == TicksExtent(ax)
      && g.titleOffset - ax.titleOffset == GetExtent(ax, tk) - TitleExtent(ax, tk)
      && (g.title == "" <==> !Truthy(ax.title))
  {
  }
}

=== FILE: axis_model.dfy ===
/** The records an axis is made of: its position and frame, its scale and
    ticker, its text layout, and the drawable glyph it fills in. The pero
    toolkit's own computations (tick generation, value scaling, text
    measurement) are not part of this model; they enter through a
    `Toolkit` record of total functions that every operation receives. */
module AxisModel {
  import opened Common

  /** Where the axis sits around the data frame. `Other` is any defined
      position that is not one of the four sides; `Unset` is `UNDEF`. */
  datatype Position = Left | Right | Top | Bottom | Other | Unset

  /** The top/bottom positions (the `POSITION_TB` group). */
  predicate Horizontal(p: Position) {
    p == Top || p == Bottom
  }

  /** The rectangle the axis is laid out against. */
  datatype Frame = Frame(x1: real, y1: real, x2: real, y2: real)

  /** A pair `(first, second)`, as the source's `in_range`/`out_range` tuples. */
  datatype Pair = Pair(first: real, second: real)

  datatype ScaleKind = LinScale | LogScale | CustomScale(id: nat)

  /** A continuous scale: only its two ranges are visible to the axis. */
  datatype Scale = Scale(kind: ScaleKind, inRange: Pair, outRange: Pair)

  datatype TickerKind = LinTicker | LogTicker | FixTicker | TimeTicker | CustomTicker(id: nat)

  datatype FormatterKind = DefaultFormatter | IndexFormatter

  /** The ticker's label formatter: the log base and the fixed label set are
      the two attributes the axis variants write. */
  datatype Formatter = Formatter(kind: FormatterKind, base: Option<real>, labels: seq<string>)

  /** A tick generator. `base` is written by the logarithmic axis,
      `majorValues`/`minorValues` by the ordinal axis (fixed ticks). */
  datatype Ticker = Ticker(
    kind: TickerKind,
    base: Option<real>,
    majorValues: seq<real>,
    minorValues: seq<real>,
    formatter: Formatter)

  /** Measured size of a text; pero never reports negative sizes. */
  type Length = r: real | r >= 0.0

  datatype Box = Box(width: Length, height: Length)

  /** The foreign collaborators. `majorTicks`, `minorTicks`, `labels` and
      `suffix` are the ticker's methods once its start and end have been set
      to the scale's input range; `project` is `scale.scale`; `labelBox` is
      `canvas.get_text_bbox` for a label at an angle; `titleBox` is
      `canvas.get_text_size` for the title; `defaultOutRange` is the output
      range a freshly built scale starts with; `logTickerBase` is the base a
      freshly built logarithmic ticker starts with. */
  datatype Toolkit = Toolkit(
    majorTicks: (Ticker, Pair) -> seq<real>,
    minorTicks: (Ticker, Pair) -> seq<real>,
    labels: (Ticker, Pair) -> seq<string>,
    suffix: (Ticker, Pair) -> string,
    project: (Scale, real) -> real,
    labelBox: (string, real) -> Box,
    titleBox: string -> Box,
    defaultOutRange: Pair,
    logTickerBase: real)

  datatype TextAlign = AlignLeft | AlignCenter | AlignRight

  datatype TextBase = BaseTop | BaseMiddle | BaseBottom

  /** The four text properties whose defaults follow the position.
      `None` is `UNDEF`. */
  datatype TextLayout = TextLayout(
    titleAlign: Option<TextAlign>,
    titleBase: Option<TextBase>,
    labelAlign: Option<TextAlign>,
    labelBase: Option<TextBase>)

  /** Names of the four position-driven properties, as the caller spells
      them in an override set. */
  const TitleTextAlign: string := "title_text_align"
  const TitleTextBase: string := "title_text_base"
  const LabelTextAlign: string := "label_text_align"
  const LabelTextBase: string := "label_text_base"

  /** The categorical pre-mapping an ordinal axis builds from its labels
      (`OrdinalScale` without implicit values and without recycling). */
  datatype Mapper = Mapper(inRange: seq<string>, outRange: seq<int>)

  /** Which class the axis was built as. Plain is `Axis` itself. */
  datatype AxisKind = PlainAxis | LinAxis | LogAxis | OrdinalAxis | TimeAxis

  /** An axis with the effective value of every property the core reads.
      `base` belongs to the logarithmic axis and `labels` to the ordinal
      axis (an `UNDEF` label tuple is the empty sequence). */
  datatype Axis = Axis(
    kind: AxisKind,
    visible: bool,
    position: Position,
    frame: Frame,
    showTitle: bool,
    showLabels: bool,
    showLine: bool,
    showMajorTicks: bool,
    showMinorTicks: bool,
    mapper: Option<Mapper>,
    scale: Scale,
    ticker: Ticker,
    title: Option<string>,
    titleOffset: real,
    labelOffset: real,
    labelAngle: real,
    majorTickSize: real,
    majorTickOffset: real,
    minorTickSize: real,
    minorTickOffset: real,
    text: TextLayout,
    base: Option<real>,
    labels: seq<string>)

  /** What the axis hands to its drawable glyph before drawing it. */
  datatype Glyph = Glyph(
    x: real,
    y: real,
    length: real,
    title: string,
    labels: seq<string>,
    majorTicks: seq<real>,
    minorTicks: seq<real>,
    titleOffset: real,
    labelOffset: real)
}

=== FILE: axis_variants.dfy ===
/** The concrete axis classes of `perrot.chart.axes`: how each picks its
    default scale and ticker, locks them, and keeps variant state (the
    logarithmic base, the ordinal category set) in step with its ticker,
    scale and mapper. Property-changed handlers become setter functions. */
module AxisVariants {
  import opened Common
  import opened AxisModel
  import opened AxisLayout

  datatype AxisError =
    | ImmutableProperty(name: string)  // reassigning a locked scale or ticker
    | LabelNotFound(value: string)   // an ordinal lookup outside the category set

  // ---------------------------------------------------------------------
  // Construction
  // ---------------------------------------------------------------------

  /** The keyword arguments a caller may pass to a constructor, as far as
      the core reads them: `Some` means the key was supplied. */
  datatype AxisOverrides = AxisOverrides(
    scale: Option<Scale>,
    ticker: Option<Ticker>,
    title: Option<string>,
    titleAlign: Option<TextAlign>,
    titleBase: Option<TextBase>,
    labelAlign: Option<TextAlign>,
    labelBase: Option<TextBase>,
    base: Option<real>,
    labels: Option<seq<string>>)

  /** The names of the position-driven text properties the caller supplied;
      the constructor keeps those as given. */
  function PinnedText(o: AxisOverrides): (keep: set<string>)
    ensures TitleTextAlign in keep <==> o.titleAlign.Some?
    ensures TitleTextBase in keep <==> o.titleBase.Some?
    ensures LabelTextAlign in keep <==> o.labelAlign.Some?
    ensures LabelTextBase in keep <==> o.labelBase.Some?
  {
    (if o.titleAlign.Some? then {TitleTextAlign} else {})
    + (if o.titleBase.Some? then {TitleTextBase} else {})
    + (if o.labelAlign.Some? then {LabelTextAlign} else {})
    + (if o.labelBase.Some? then {LabelTextBase} else {})
  }

  /** The input range of the scale a variant builds when the caller gives
      none. */
  function DefaultInRange(kind: AxisKind): (r: Pair)
    ensures kind == LogAxis ==> r == Pair(1.0, 10.0)
    ensures kind == OrdinalAxis ==> r == Pair(-0.5, 0.5)
    ensures kind != LogAxis && kind != OrdinalAxis ==> r == Pair(0.0, 1.0)
  {
    match kind
    case PlainAxis => Pair(0.0, 1.0)
    case LinAxis => Pair(0.0, 1.0)
    case LogAxis => Pair(1.0, 10.0)
    case OrdinalAxis => Pair(-0.5, 0.5)
    case TimeAxis => Pair(0.0, 1.0)
  }

  function DefaultScale(kind: AxisKind, tk: Toolkit): (s: Scale)
    ensures s.inRange == DefaultInRange(kind)
    ensures s.kind == (if kind == LogAxis then LogScale else LinScale)
  {
    Scale(if kind == LogAxis then LogScale else LinScale, DefaultInRange(kind), tk.defaultOutRange)
  }

  /** A fresh ticker of the variant's kind; the ordinal axis gets fixed
      ticks with an index formatter, and the logarithmic ticker starts with
      pero's own default base. Attributes the core never writes on
      construction start empty or `UNDEF`. */
  function DefaultTicker(kind: AxisKind, tk: Toolkit): (t: Ticker)
    ensures t.kind == (match kind
                       case LogAxis => LogTicker
                       case OrdinalAxis => FixTicker
                       case TimeAxis => TimeTicker
                       case _ => LinTicker)
    ensures (kind == OrdinalAxis) <==> t.formatter.kind == IndexFormatter
    ensures kind == LogAxis ==> t.base == Some(tk.logTickerBase)
  {
    var k := match kind
      case PlainAxis => LinTicker
      case LinAxis => LinTicker
      case LogAxis => LogTicker
      case OrdinalAxis => FixTicker
      case TimeAxis => TimeTicker;
    var f := if kind == OrdinalAxis then IndexFormatter else DefaultFormatter;
    Ticker(k, if kind == LogAxis then Some(tk.logTickerBase) else None, [], [], Formatter(f, None, []))
  }

  /** `Axis.__init__` with the class defaults of every property and the
      position defaults applied, keeping pinned text properties. */
  function BaseAxis(kind: AxisKind, position: Position, frame: Frame, o: AxisOverrides, tk: Toolkit): Axis {
    var text := TextLayout(o.titleAlign, o.titleBase, o.labelAlign, o.labelBase);
    Axis(
      kind, true, position, frame,
      true, true, true, true, true,
      None,
      o.scale.GetOr(DefaultScale(kind, tk)),
      o.ticker.GetOr(DefaultTicker(kind, tk)),
      o.title,
      5.0, 3.0, 0.0,
      6.0, 0.0, 3.0, 0.0,
      UpdatePosition(position, text, PinnedText(o)),
      o.base,
      o.labels.GetOr([]))
  }

  /** Builds an axis of the given class. A caller-supplied scale or ticker
      is used as is (the ordinal axis then rewrites its ranges and ticks
      from the labels, the logarithmic axis its base); otherwise the
      variant's default pairing is built. */
  function NewAxis(kind: AxisKind, position: Position, frame: Frame, o: AxisOverrides, tk: Toolkit): (ax: Axis)
    ensures ax.kind == kind && ax.position == position && ax.frame == frame && ax.visible
    ensures o.scale.Some? ==> ax.scale.kind == o.scale.value.kind && ax.scale.outRange == o.scale.value.outRange
    ensures o.scale.Some? && kind != OrdinalAxis ==> ax.scale == o.scale.value
    ensures o.scale.None? && kind != OrdinalAxis ==> ax.scale.inRange == DefaultInRange(kind)
    ensures kind == OrdinalAxis && o.labels.GetOr([]) == [] ==> ax.scale.inRange == Pair(-0.5, 0.5)
    ensures o.ticker.Some? ==> ax.ticker.kind == o.ticker.value.kind
    ensures o.ticker.Some? && kind != OrdinalAxis && !(kind == LogAxis && o.base.Some?) ==> ax.ticker == o.ticker.value
    ensures o.ticker.None? ==> ax.ticker.kind == DefaultTicker(kind, tk).kind
    ensures o.ticker.None? ==> ax.ticker.formatter.kind == DefaultTicker(kind, tk).formatter.kind
    ensures o.scale.None? ==> ax.scale.kind == DefaultScale(kind, tk).kind
    ensures o.scale.None? ==> ax.scale.outRange == tk.defaultOutRange
    ensures ax.title == o.title
    ensures ax.labels == o.labels.GetOr([]) && ax.base == o.base
    ensures ax.mapper.None? <==> kind != OrdinalAxis || o.labels.GetOr([]) == []
    ensures ax.showTitle && ax.showLabels && ax.showLine && ax.showMajorTicks && ax.showMinorTicks
    ensures ax.titleOffset == 5.0 && ax.labelOffset == 3.0 && ax.labelAngle == 0.0
    ensures ax.majorTickSize == 6.0 && ax.majorTickOffset == 0.0 && ax.minorTickSize == 3.0 && ax.minorTickOffset == 0.0
    ensures ax.text == UpdatePosition(position, TextLayout(o.titleAlign, o.titleBase, o.labelAlign, o.labelBase), PinnedText(o))
    ensures o.titleAlign.Some? ==> ax.text.titleAlign == o.titleAlign
    ensures o.titleBase.Some? ==> ax.text.titleBase == o.titleBase
    ensures o.labelAlign.Some? ==> ax.text.labelAlign == o.labelAlign
    ensures o.labelBase.Some? ==> ax.text.labelBase == o.labelBase
    ensures kind == OrdinalAxis ==> OrdinalConsistent(ax)
    ensures kind == LogAxis && o.base.Some? ==> ax.ticker.base == ax.ticker.formatter.base == o.base
    ensures kind == LogAxis && o.base.Some? ==> BaseConsistent(ax)
    ensures kind == LogAxis && o.base.None? && o.ticker.None? ==> ax.base.None? && ax.ticker.base == Some(tk.logTickerBase)
  {
    var ax := BaseAxis(kind, position, frame, o, tk);
    match kind
    case LogAxis => if o.base.Some? then UpdateBase(ax) else ax
    case OrdinalAxis => UpdateLabels(ax)
    case _ => ax
  }

  /** The variants lock their scale and ticker; only a plain `Axis` lets
      them be replaced. */
  function SetScale(ax: Axis, s: Scale): (r: Result<Axis, AxisError>)
    ensures ax.kind == PlainAxis <==> r.Ok?
    ensures r.Ok? ==> r.value == ax.(scale := s)
    ensures r.Err? ==> r.error == ImmutableProperty("scale")
  {
    if ax.kind == PlainAxis then Ok(ax.(scale := s)) else Err(ImmutableProperty("scale"))
  }

  function SetTicker(ax: Axis, t: Ticker): (r: Result<Axis, AxisError>)
    ensures ax.kind == PlainAxis <==> r.Ok?
    ensures r.Ok? ==> r.value == ax.(ticker := t)
    ensures r.Err? ==> r.error == ImmutableProperty("ticker")
  {
    if ax.kind == PlainAxis then Ok(ax.(ticker := t)) else Err(ImmutableProperty("ticker"))
  }

  // ---------------------------------------------------------------------
  // Logarithmic axis
  // ---------------------------------------------------------------------

  /** Ticker and formatter agree with the axis's base. */
  predicate BaseConsistent(ax: Axis) {
    ax.ticker.base == ax.base && ax.ticker.formatter.base == ax.base
  }

  /** Copies the axis's base into the ticker and its formatter; nothing
      else about the axis or its ticker changes. */
  function UpdateBase(ax: Axis): (r: Axis)
    ensures BaseConsistent(r)
    ensures r.base == ax.base
    ensures r.(ticker := ax.ticker) == ax
    ensures r.ticker.(base := ax.ticker.base, formatter := ax.ticker.formatter) == ax.ticker
    ensures r.ticker.formatter.(base := ax.ticker.formatter.base) == ax.ticker.formatter
  {
    ax.(ticker := ax.ticker.(base := ax.base, formatter := ax.ticker.formatter.(base := ax.base)))
  }

  /** Assigns the base of a logarithmic axis; a change is propagated to the
      ticker and formatter at once. */
  function SetBase(ax: Axis, b: Option<real>): (r: Axis)
    requires ax.kind == LogAxis
    ensures r.base == b
    ensures b == ax.base ==> r == ax
    ensures b != ax.base ==> r.ticker.base == b && r.ticker.formatter.base == b
    ensures r.ticker.(base := ax.ticker.base, formatter := ax.ticker.formatter) == ax.ticker
    ensures r.ticker.formatter.(base := ax.ticker.formatter.base) == ax.ticker.formatter
    ensures BaseConsistent(ax) ==> BaseConsistent(r)
    ensures r.(ticker := ax.ticker, base := ax.base) == ax
  {
    if b == ax.base then ax else UpdateBase(ax.(base := b))
  }

  /** The scenario of a base changed from 10 to 2: both the ticker and its
      formatter read 2 immediately afterwards. */
  lemma BaseTenToTwo(ax: Axis)
    requires ax.kind == LogAxis && ax.base == Some(10.0)
    ensures var r := SetBase(ax, Some(2.0));
      r.ticker.base == Some(2.0) && r.ticker.formatter.base == Some(2.0)
  {
  }

  // ---------------------------------------------------------------------
  // Ordinal axis
  // ---------------------------------------------------------------------

  /** Tick positions `0, 1, ..., n-1`, one per category. */
  function IndexTicks(n: nat): (r: seq<real>)
    ensures |r| == n
    ensures forall i :: 0 <= i < n ==> r[i] == i as real
  {
    seq(n, i requires 0 <= i < n => i as real)
  }

  /** `-0.5` followed by every tick shifted by one half: the boundaries
      between neighbouring categories plus the two outer edges. */
  function BoundaryTicks(ticks: seq<real>): (r: seq<real>)
    ensures |r| == |ticks| + 1
    ensures r[0] == -0.5
    ensures forall i :: 0 <= i < |ticks| ==> r[i + 1] == ticks[i] + 0.5
  {
    [-0.5] + seq(|ticks|, i requires 0 <= i < |ticks| => ticks[i] + 0.5)
  }

  /** Mapper, scale range, ticks and formatter all agree with the labels. */
  ghost predicate OrdinalConsistent(ax: Axis) {
    var n := |ax.labels|;
    && ax.ticker.formatter.labels == ax.labels
    && (n == 0 ==>
          && ax.mapper.None?
          && ax.scale.inRange == Pair(-0.5, 0.5)
          && ax.ticker.majorValues == []
          && ax.ticker.minorValues == [])
    && (n > 0 ==>
          && ax.mapper.Some?
          && ax.mapper.value.inRange == ax.labels
          && |ax.mapper.value.outRange| == n
          && (forall i :: 0 <= i < n ==> ax.mapper.value.outRange[i] == i)
          && ax.scale.inRange == Pair(-0.5, n as real - 0.5)
          && |ax.ticker.majorValues| == n
          && (forall i :: 0 <= i < n ==> ax.ticker.majorValues[i] == i as real)
          && |ax.ticker.minorValues| == n + 1
          && (forall i :: 0 <= i <= n ==> ax.ticker.minorValues[i] == i as real - 0.5))
  }

  /** Rebuilds mapper, scale input range, fixed ticks and formatter labels
      from the current labels; the scale's kind and output range, the
      ticker's kind and base and everything else about the axis stay. */
  function UpdateLabels(ax: Axis): (r: Axis)
    ensures OrdinalConsistent(r)
    ensures r.(mapper := ax.mapper, scale := ax.scale, ticker := ax.ticker) == ax
    ensures r.scale.kind == ax.scale.kind && r.scale.outRange == ax.scale.outRange
    ensures r.ticker.kind == ax.ticker.kind && r.ticker.base == ax.ticker.base
    ensures r.ticker.formatter.kind == ax.ticker.formatter.kind
    ensures r.ticker.formatter.base == ax.ticker.formatter.base
  {
    if |ax.labels| == 0 then
      ax.(mapper := None,
          scale := ax.scale.(inRange := Pair(-0.5, 0.5)),
          ticker := ax.ticker.(majorValues := [], minorValues := [],
                               formatter := ax.ticker.formatter.(labels := [])))
    else
      var count := |ax.labels|;
      var major := IndexTicks(count);
      var minor := BoundaryTicks(major);
      var mapperValues := seq(count, i requires 0 <= i < count => i);
      ax.(mapper := Some(Mapper(ax.labels, mapperValues)),
          scale := ax.scale.(inRange := Pair(-0.5, count as real - 0.5)),
          ticker := ax.ticker.(majorValues := major, minorValues := minor,
                               formatter := ax.ticker.formatter.(labels := ax.labels)))
  }

  /** Assigns the labels of an ordinal axis; a change rebuilds everything
      derived from them, so consistency is kept by every assignment. */
  function SetLabels(ax: Axis, labels: seq<string>): (r: Axis)
    requires ax.kind == OrdinalAxis
    ensures r.labels == labels
    ensures labels == ax.labels ==> r == ax
    ensures r.(mapper := ax.mapper, scale := ax.scale, ticker := ax.ticker, labels := ax.labels) == ax
    ensures r.scale.kind == ax.scale.kind && r.scale.outRange == ax.scale.outRange
    ensures r.ticker.kind == ax.ticker.kind && r.ticker.base == ax.ticker.base
    ensures r.ticker.formatter.kind == ax.ticker.formatter.kind
    ensures r.ticker.formatter.base == ax.ticker.formatter.base
    ensures OrdinalConsistent(ax) ==> OrdinalConsistent(r)
    ensures labels != ax.labels ==> OrdinalConsistent(r)
  {
    if labels == ax.labels then ax else UpdateLabels(ax.(labels := labels))
  }

  /** Every category's tick lies strictly between two consecutive minor
      boundaries one unit apart, and the outer boundaries are exactly the
      scale's input range. */
  lemma OrdinalTicksBracket(ax: Axis)
    requires OrdinalConsistent(ax) && |ax.labels| > 0
    ensures var n := |ax.labels|;
      var major := ax.ticker.majorValues;
      var minor := ax.ticker.minorValues;
      && minor[0] == ax.scale.inRange.first
      && minor[n] == ax.scale.inRange.second
      && (forall i :: 0 <= i < n ==> minor[i] < major[i] < minor[i + 1] && minor[i + 1] - minor[i] == 1.0)
  {
  }

  /** Position of the first occurrence of `x` in `s`. */
  function IndexOf(s: seq<string>, x: string): (r: Option<nat>)
    ensures r.None? <==> x !in s
    ensures r.Some? ==> r.value < |s| && s[r.value] == x
    ensures r.Some? ==> forall j :: 0 <= j < r.value ==> s[j] != x
  {
    if |s| == 0 then None
    else if s[0] == x then Some(0)
    else
      match IndexOf(s[1..], x)
      case None => None
      case Some(k) => Some(k + 1)
  }

  /** Maps a category through the ordinal mapper. Implicit values and
      recycling are off, so a category outside the set is an error rather
      than a fresh or wrapped-around position. */
  function MapLabel(m: Mapper, category: string): (r: Result<int, AxisError>)
    requires |m.outRange| == |m.inRange|
    ensures r.Err? <==> category !in m.inRange
    ensures r.Err? ==> r.error == LabelNotFound(category)
    ensures r.Ok? ==> exists i :: 0 <= i < |m.inRange| && m.inRange[i] == category && r.value == m.outRange[i]
  {
    match IndexOf(m.inRange, category)
    case None => Err(LabelNotFound(category))
    case Some(i) => Ok(m.outRange[i])
  }

  /** With distinct labels, an ordinal axis maps each category to its own
      index and refuses every other value. */
  lemma OrdinalMapsLabelsToIndices(ax: Axis, category: string)
    requires OrdinalConsistent(ax) && |ax.labels| > 0
    requires forall i, j :: 0 <= i < j < |ax.labels| ==> ax.labels[i] != ax.labels[j]
    ensures |ax.mapper.value.outRange| == |ax.mapper.value.inRange|
    ensures category !in ax.labels ==> MapLabel(ax.mapper.value, category) == Err(LabelNotFound(category))
    ensures forall i :: 0 <= i < |ax.labels| && ax.labels[i] == category ==> MapLabel(ax.mapper.value, category) == Ok(i)
  {
  }

  /** The three-category example: `one`, `two`, `three` become 0, 1, 2,
      the input range is (-0.5, 2.5) and the ticks sit accordingly. */
  lemma ThreeLabels(ax: Axis)
    requires ax.kind == OrdinalAxis && ax.labels == []
    ensures var r := SetLabels(ax, ["one", "two", "three"]);
      && r.scale.inRange == Pair(-0.5, 2.5)
      && r.ticker.majorValues == [0.0, 1.0, 2.0]
      && r.ticker.minorValues == [-0.5, 0.5, 1.5, 2.5]
      && r.mapper == Some(Mapper(["one", "two", "three"], [0, 1, 2]))
  {
    var r := SetLabels(ax, ["one", "two", "three"]);
    assert r.ticker.majorValues == [0.0, 1.0, 2.0];
    assert r.ticker.minorValues == [-0.5, 0.5, 1.5, 2.5];
    assert r.mapper.value.outRange == [0, 1, 2];
  }

  /** Clearing the labels resets the scale to the unlabelled range and
      empties mapper, ticks and formatter labels. */
  lemma ClearLabels(ax: Axis)
    requires ax.kind == OrdinalAxis
    ensures var r := SetLabels(ax, []);
      ax.labels != [] ==>
        && r.mapper == None
        && r.scale.inRange == Pair(-0.5, 0.5)
        && r.ticker.majorValues == [] && r.ticker.minorValues == []
        && r.ticker.formatter.labels == []
  {
  }
}

=== FILE: common.dfy ===
/** Small shared datatypes: an optional value (the source's None / UNDEF)
    and a result that carries either a value or an error. */
module Common {

  /** `None` stands for both Python's `None` and pero's `UNDEF` marker. */
  datatype Option<+T> = None | Some(value: T) {

    /** Returns the carried value, or `default` when there is none. */
    function GetOr(default: T): T {
      match this
      case Some(v) => v
      case None => default
    }
  }

  datatype Result<+T, +E> = Ok(value: T) | Err(error: E)

  /** Python truthiness of an optional string: `None`, `UNDEF` and `""` are false. */
  predicate Truthy(s: Option<string>) {
    s.Some? && s.value != ""
  }
}

=== FILE: venn_patches.dfy ===
/** Venn diagram patches (`perrot.venn.patches`): a region or circle shape
    that draws its path in full, fill only or outline only. The canvas is
    modelled as the list of commands a draw call issues, and a small
    interpreter gives those commands their meaning: which pen and brush
    are in force when the path is drawn. */
module VennPatches {
  import opened Common

  datatype Color = Transparent | White | Rgba(red: real, green: real, blue: real, alpha: real)

  datatype FillStyle = Solid | Trans

  /** The outline properties a pen is set from. `None` colour is `UNDEF`. */
  datatype LineProps = LineProps(color: Option<Color>, width: real)

  /** The fill properties a brush is set from. */
  datatype FillProps = FillProps(color: Option<Color>, style: Option<FillStyle>)

  /** A precomputed shape; its geometry is not part of this model. */
  datatype Path = Path(id: nat)

  datatype PatchKind = RegionPatch | CirclePatch

  /** A drawable Venn region or circle. */
  datatype Patch = Patch(
    kind: PatchKind,
    value: real,
    title: Option<string>,
    path: Option<Path>,
    line: LineProps,
    fill: FillProps,
    x: real,
    y: real)

  /** What a draw call asks of the canvas. */
  datatype Command =
    | SetPen(line: LineProps)      // canvas.set_pen_by(patch)
    | SetBrush(fill: FillProps)    // canvas.set_brush_by(patch)
    | SetLineWidth(width: real)    // canvas.line_width = ...
    | SetFillTrans                 // canvas.fill_style = FILL_STYLE_TRANS
    | DrawPath(path: Path)         // canvas.draw_path(path)

  /** Number of path-drawing commands in a trace. */
  function DrawCount(t: seq<Command>): nat {
    if |t| == 0 then 0
    else DrawCount(t[..|t| - 1]) + (if t[|t| - 1].DrawPath? then 1 else 0)
  }

  /** The trace draws `path` once, as its final command. */
  predicate DrawsOnceLast(t: seq<Command>, path: Path) {
    |t| > 0 && t[|t| - 1] == DrawPath(path) && DrawCount(t) == 1
  }

  lemma DrawCountAppend(t: seq<Command>, c: Command)
    ensures DrawCount(t + [c]) == DrawCount(t) + (if c.DrawPath? then 1 else 0)
  {
  }

  /** Draws the full patch: pen and brush from the patch, then the path. */
  function Draw(p: Patch): (t: seq<Command>)
    ensures p.path.None? <==> t == []
    ensures p.path.Some? ==> t == [SetPen(p.line), SetBrush(p.fill), DrawPath(p.path.value)]
    ensures p.path.Some? ==> DrawsOnceLast(t, p.path.value)
  {
    if p.path.None? then []
    else
      DrawCountAppend([SetPen(p.line), SetBrush(p.fill)], DrawPath(p.path.value));
      DrawCountAppend([SetPen(p.line)], SetBrush(p.fill));
      DrawCountAppend([], SetPen(p.line));
      [SetPen(p.line), SetBrush(p.fill)] + [DrawPath(p.path.value)]
  }

  /** Draws the fill only: the pen is suppressed by a zero line width and
      never set from the patch. */
  function DrawFill(p: Patch): (t: seq<Command>)
    ensures p.path.None? <==> t == []
    ensures p.path.Some? ==> t == [SetLineWidth(0.0), SetBrush(p.fill), DrawPath(p.path.value)]
    ensures p.path.Some? ==> DrawsOnceLast(t, p.path.value)
    ensures forall i :: 0 <= i < |t| ==> !t[i].SetPen?
  {
    if p.path.None? then []
    else
      DrawCountAppend([SetLineWidth(0.0), SetBrush(p.fill)], DrawPath(p.path.value));
      DrawCountAppend([SetLineWidth(0.0)], SetBrush(p.fill));
      DrawCountAppend([], SetLineWidth(0.0));
      [SetLineWidth(0.0), SetBrush(p.fill)] + [DrawPath(p.path.value)]
  }

  /** Draws the outline only: the fill is made transparent and the brush is
      never set from the patch. */
  function DrawOutline(p: Patch): (t: seq<Command>)
    ensures p.path.None? <==> t == []
    ensures p.path.Some? ==> t == [SetPen(p.line), SetFillTrans, DrawPath(p.path.value)]
    ensures p.path.Some? ==> DrawsOnceLast(t, p.path.value)
    ensures forall i :: 0 <= i < |t| ==> !t[i].SetBrush?
  {
    if p.path.None? then []
    else
      DrawCountAppend([SetPen(p.line), SetFillTrans], DrawPath(p.path.value));
      DrawCountAppend([SetPen(p.line)], SetFillTrans);
      DrawCountAppend([], SetPen(p.line));
      [SetPen(p.line), SetFillTrans] + [DrawPath(p.path.value)]
  }

  // ---------------------------------------------------------------------
  // Meaning of a trace
  // ---------------------------------------------------------------------

  /** A path as it ends up on the canvas, with the pen and brush in force. */
  datatype Stroke = Stroke(path: Path, line: LineProps, fill: FillProps)

  /** The canvas's current pen and brush, and what has been drawn. */
  datatype Canvas = Canvas(line: LineProps, fill: FillProps, strokes: seq<Stroke>)

  function Apply(c: Canvas, cmd: Command): Canvas {
    match cmd
    case SetPen(l) => c.(line := l)
    case SetBrush(f) => c.(fill := f)
    case SetLineWidth(w) => c.(line := c.line.(width := w))
    case SetFillTrans => c.(fill := c.fill.(style := Some(Trans)))
    case DrawPath(path) => c.(strokes := c.strokes + [Stroke(path, c.line, c.fill)])
  }

  /** Executes a trace command by command. */
  function Run(c: Canvas, t: seq<Command>): Canvas
    decreases |t|
  {
    if |t| == 0 then c else Run(Apply(c, t[0]), t[1..])
  }

  /** A one-command trace is that command. */
  lemma RunSingle(c: Canvas, a: Command)
    ensures Run(c, [a]) == Apply(c, a)
  {
  }

  /** Running two traces one after the other is running their
      concatenation. */
  lemma {:induction false} RunAppend(c: Canvas, t1: seq<Command>, t2: seq<Command>)
    ensures Run(c, t1 + t2) == Run(Run(c, t1), t2)
    decreases |t1|
  {
    if |t1| == 0 {
      assert t1 + t2 == t2;
    } else {
      assert (t1 + t2)[0] == t1[0];
      assert (t1 + t2)[1..] == t1[1..] + t2;
      RunAppend(Apply(c, t1[0]), t1[1..], t2);
    }
  }

  /** A three-command trace applies its commands in order. */
  lemma {:induction false} RunThree(c: Canvas, a: Command, b: Command, d: Command)
    ensures Run(c, [a, b, d]) == Apply(Apply(Apply(c, a), b), d)
  {
    assert [a, b, d] == [a] + [b] + [d];
    RunAppend(c, [a] + [b], [d]);
    RunAppend(c, [a], [b]);
    RunSingle(c, a);
    RunSingle(Apply(c, a), b);
    RunSingle(Apply(Apply(c, a), b), d);
  }

  /** `draw` puts exactly one stroke on the canvas, with the patch's own
      outline and fill whatever the canvas held before; without a path the
      canvas is left as it was. */
  lemma {:induction false} DrawUsesPatchStyle(p: Patch, c: Canvas)
    ensures p.path.None? ==> Run(c, Draw(p)) == c
    ensures p.path.Some? ==> Run(c, Draw(p)).strokes == c.strokes + [Stroke(p.path.value, p.line, p.fill)]
  {
    if p.path.Some? {
      RunThree(c, SetPen(p.line), SetBrush(p.fill), DrawPath(p.path.value));
    }
  }

  /** `draw_fill` strokes the path with a zero-width pen and the patch's
      fill; the pen colour is whatever the canvas had. */
  lemma {:induction false} DrawFillHasNoOutline(p: Patch, c: Canvas)
    ensures p.path.None? ==> Run(c, DrawFill(p)) == c
    ensures p.path.Some? ==>
      Run(c, DrawFill(p)).strokes == c.strokes + [Stroke(p.path.value, c.line.(width := 0.0), p.fill)]
  {
    if p.path.Some? {
      RunThree(c, SetLineWidth(0.0), SetBrush(p.fill), DrawPath(p.path.value));
    }
  }

  /** `draw_outline` strokes the path with the patch's pen and a
      transparent fill; the fill colour is whatever the canvas had. */
  lemma {:induction false} DrawOutlineHasNoFill(p: Patch, c: Canvas)
    ensures p.path.None? ==> Run(c, DrawOutline(p)) == c
    ensures p.path.Some? ==>
      Run(c, DrawOutline(p)).strokes == c.strokes + [Stroke(p.path.value, p.line, c.fill.(style := Some(Trans)))]
  {
    if p.path.Some? {
      RunThree(c, SetPen(p.line), SetFillTrans, DrawPath(p.path.value));
    }
  }

  // ---------------------------------------------------------------------
  // Constructor defaults
  // ---------------------------------------------------------------------

  /** A keyword-argument value, as far as the defaults are concerned. */
  datatype Value = Number(n: real) | Colour(c: Color) | Unset | OtherValue(text: string)

  const LineWidth: string := "line_width"
  const LineColor: string := "line_color"
  const FillColor: string := "fill_color"

  /** Fills in the three outline/fill defaults for keys the caller did not
      supply. */
  function WithDefaults(o: map<string, Value>, width: Value, line: Value, fill: Value): (r: map<string, Value>)
    ensures r.Keys == o.Keys + {LineWidth, LineColor, FillColor}
    ensures forall k :: k in o ==> r[k] == o[k]
    ensures LineWidth !in o ==> r[LineWidth] == width
    ensures LineColor !in o ==> r[LineColor] == line
    ensures FillColor !in o ==> r[FillColor] == fill
  {
    var o := if LineWidth !in o then o[LineWidth := width] else o;
    var o := if LineColor !in o then o[LineColor := line] else o;
    if FillColor !in o then o[FillColor := fill] else o
  }

  /** Region defaults: width 2, transparent outline and fill. */
  function RegionOverrides(o: map<string, Value>): (r: map<string, Value>)
    ensures r.Keys == o.Keys + {LineWidth, LineColor, FillColor}
    ensures forall k :: k in o ==> r[k] == o[k]
    ensures LineWidth !in o ==> r[LineWidth] == Number(2.0)
    ensures LineColor !in o ==> r[LineColor] == Colour(Transparent)
    ensures FillColor !in o ==> r[FillColor] == Colour(Transparent)
  {
    WithDefaults(o, Number(2.0), Colour(Transparent), Colour(Transparent))
  }

  /** Circle defaults: width 2, white outline, fill left `UNDEF`. */
  function CircleOverrides(o: map<string, Value>): (r: map<string, Value>)
    ensures r.Keys == o.Keys + {LineWidth, LineColor, FillColor}
    ensures forall k :: k in o ==> r[k] == o[k]
    ensures LineWidth !in o ==> r[LineWidth] == Number(2.0)
    ensures LineColor !in o ==> r[LineColor] == Colour(White)
    ensures FillColor !in o ==> r[FillColor] == Unset
  {
    WithDefaults(o, Number(2.0), Colour(White), Unset)
  }

  /** Filling in defaults twice is the same as once. */
  lemma DefaultsIdempotent(o: map<string, Value>)
    ensures RegionOverrides(RegionOverrides(o)) == RegionOverrides(o)
    ensures CircleOverrides(CircleOverrides(o)) == CircleOverrides(o)
  {
  }

  /** Region and circle differ only in the colours they fill in: every key
      except the two colour keys maps to the same value. */
  lemma RegionCircleAgreeOffColour(o: map<string, Value>)
    ensures RegionOverrides(o).Keys == CircleOverrides(o).Keys
    ensures forall k :: k in o || k == LineWidth ==> RegionOverrides(o)[k] == CircleOverrides(o)[k]
  {
  }
}
